=== FILE: README.md ===
# bwimport: remote byte window and interval import, in Dafny

This project models two parts of bwimport, an R package that imports per-base values from bigWig files:

- **The remote byte window of the URL layer** (`src/io.c`). A remote handle keeps one memory buffer. The buffer holds a window of the resource: `filePos` is where the window starts, `bufLen` is how many bytes it holds and `bufPos` is the read cursor inside it. The model covers these pieces:
  - `bwFillBuffer` is the curl write callback. It appends each chunk, capped at the buffer's capacity.
  - `urlFetchData` advances the window and fetches an inclusive byte range.
  - `url_fread` drains the window and refetches in a three-branch loop.
  - `urlSeek`, remote branch: it moves the cursor inside the window, or it resets the window and fetches at once.
  - `urlOpen`: protocol detection and the warm-up transfer.
  - `urlRead`: the dispatch between local and remote handles.
- **The query logic of `bw_import_impl`** (`src/bw_import.cpp`):
  - the `chr`-prefix stripper;
  - first-match chromosome resolution;
  - the "available examples" preview that is shown when no name matches;
  - the conversion from a 1-based inclusive query to a 0-based half-open one;
  - the loop that paints intervals into a zero-initialised output vector.

Modules:

- `Common` holds `Option`, `Min` and `Max`.
- `RemoteWindow` covers the window, the write callback, fetch, read and seek.
- `UrlOpen` covers `urlOpen` and `urlRead`.
- `ChromNames` covers stripping, resolution and the preview.
- `BwImport` covers painting and `bw_import_impl`.

The window is an immutable record. Each operation is a pure step function, or a method with loop invariants. The C field `bufLen` is the length of the window's `data`. The `(size_t)-1` "nothing fetched yet" value of `filePos` is the constructor `Origin.Unset`.

The curl transfer is an oracle. A `Transport` maps the requested inclusive byte range to a `Reply`, which is either `Completed` or `Failed` and carries the chunks curl handed to the write callback. When the write callback returns less than it was given, libcurl aborts the transfer with a write error. `Deliver` models this. So a reply that does not fit into the buffer fails the fetch: the bytes are not silently truncated.

**Modelling assumption.** Facts about the bytes a read returns are stated for an *honest range server* (`RemoteWindow.Honest`):
- A completed transfer of range `[a, b]` delivers exactly the resource's bytes `[a, min(b + 1, |resource|))`.
- A failed transfer delivers a prefix of those bytes.

This is an assumption about the server, and the code does not check it.

A remote seek outside the window resets the window and fetches the new window at once (`src/io.c:160-177`). The buffer capacity is the parameter `bufSize`, which `bw_import_impl` sets with `bwInit(1 << 17)` (`src/bw_import.cpp:25`).

## Model

| member | source | states |
|---|---|---|
| RemoteWindow.FillBuffer | src/io.c:129-140 | The write callback appends a prefix of the chunk to the window and returns that prefix's length. Only the data changes. The buffer never exceeds capacity. Bytes are dropped only when the buffer is full or absent. Without a memory buffer it returns 0 and changes nothing. A chunk that fits is appended whole. |
| RemoteWindow.Capped | src/io.c:129-140 | Delivering bytes as one chunk changes only the window's data. The data after delivery lies between the old data and the old data plus the bytes. The transfer survives exactly when the bytes fit. A failed transfer with a buffer leaves the buffer full. |
| RemoteWindow.CappedStep | src/io.c:129-140 | Feeding a first chunk and then the rest gives the same outcome as feeding both as one chunk, whether the first chunk aborts the transfer or not. |
| RemoteWindow.Deliver | src/io.c:129-140 | Because libcurl aborts on a short write, feeding a transfer's chunks in order gives the same outcome as delivering their concatenation as one chunk. So the outcome does not depend on how curl splits the bytes. |
| RemoteWindow.Perform | src/io.c:70-73 | A transfer into the window succeeds exactly when curl completes and every delivered byte fits. The window then holds the capped delivery. |
| RemoteWindow.FetchData | src/io.c:50-74 | The new origin is the old origin plus the old window length, or 0 when nothing was fetched yet. The cursor is reset. The requested range starts at the new origin and holds exactly `size` bytes. Only the origin, cursor and data change. The data is a prefix of what the server sent, and all of it on success. Success means a completed transfer that fit. On a drained window the absolute read position is unchanged. |
| RemoteWindow.HonestReply | src/io.c:60-73 | Against an honest server, the bytes kept from the reply to a range are the resource's bytes at the range start. These are a prefix of what was sent, or all of it on success, where success means a completed reply that fitted. When the range fits the buffer, success is exactly completion, and then the kept bytes are the whole served slice. |
| RemoteWindow.HonestFetch | src/io.c:50-74 | Against an honest server, a fetch keeps the window consistent with the resource. It succeeds exactly when the transfer completes, and then it holds the resource's next `size` bytes. At least one byte arrives when the origin is inside the resource. |
| RemoteWindow.FetchAtEndMakesNoProgress | src/io.c:82-87 | At the end of the resource, a completed fetch into an empty window returns the same window. This is why `url_fread` needs the requested span to lie inside the resource. |
| RemoteWindow.RefetchSize | src/io.c:95-97 | The refetch size is always in `[1, bufSize]`. For a compressed stream it is `min(remaining, bufSize)`, and otherwise it is the full buffer. |
| RemoteWindow.Refill | src/io.c:83-103 | A refetch on a drained window keeps the read invariant and requests exactly `size` bytes at the read position, which is where the window ends. It succeeds exactly when the transfer completes. After success the window starts at the requested position, holds the whole reply, and has at least one unread byte. |
| RemoteWindow.ReadStep | src/io.c:82-109 | One pass of the read loop keeps the read invariant: the bytes handed out are the resource's bytes from the start position, and the cursor sits right after them. A pass that the window can serve makes no fetch, only moves the cursor, and owes nothing afterwards. Otherwise the pass fetches at the end of the window. It asks for `bufSize` bytes on an empty window, and for `RefetchSize` of the bytes still owed after draining a non-empty one. A pass fetches exactly when bytes are still owed after it. Unless the fetch fails, the pass makes progress: fewer bytes are owed, or a drained window becomes non-empty. |
| RemoteWindow.PlannedExtend | src/io.c:79-109 | A fetch made from the window the previous fetch left, at the place and of the size the loop computes, extends the plan of a read by one range. |
| RemoteWindow.ReadPass | src/io.c:79-109 | One pass with its bookkeeping keeps the loop invariant: every fetch so far completed and followed the plan, and a read the starting window could serve made no fetch. A failed fetch ends the read with only its last fetch failed. |
| RemoteWindow.Read | src/io.c:76-111 | `url_fread` returns `n` exactly when every fetch it made completed. It makes no fetch exactly when the window can already serve the read. Otherwise it returns 0 and stops at the first failed fetch. A read the window can already serve makes no transfer and only moves the cursor. After a successful read that fetched, the window is the last reply: it starts at that range's first byte and holds all of its bytes, so a later read or seek inside them makes no transfer. The fetches follow the plan `Planned`: the first starts where the window ends, each later one where the previous reply ended, and every refetch asks for `min(remaining, bufSize)` bytes on a compressed stream and `bufSize` otherwise. On success it hands out exactly the resource's `n` bytes at the cursor, and the cursor advances by `n`. The window invariant `bufPos <= bufLen <= bufSize` still holds. |
| RemoteWindow.Seek | src/io.c:160-183 | After a seek the cursor is at `pos`. A position inside the window makes no transfer and only moves the cursor. Any other position resets the window at `pos` and requests `[pos, pos + bufSize - 1]` at once. |
| RemoteWindow.SeekKeepsAgreement | src/io.c:160-177 | Against an honest server, a seek keeps the window consistent with the resource. A seek that fetched succeeds exactly when the transfer completes, and then it holds the resource's next `bufSize` bytes from `pos`. |
| RemoteWindow.SeekAgainStaysInWindow | src/io.c:160-183 | Once a seek has left any bytes in the window, seeking to the same position again makes no transfer and leaves the window unchanged. |
| UrlOpen.StrNEqualIsPrefix | src/io.c:202-204 | `strncmp` against a literal over the literal's whole length is equal to 0 exactly when the literal is a prefix of the name. |
| UrlOpen.Classify | src/io.c:199-208 | A mode containing `w` always gives a local file. Otherwise the handle is HTTP, HTTPS or FTP exactly when the name starts with `http://`, `https://` or `ftp://`. |
| UrlOpen.Open | src/io.c:188-319 | A local handle opens exactly when `fopen` succeeds. A handle opened for reading keeps the "nothing read yet" position, and one opened for writing keeps position 0. A remote handle opens exactly when the warm-up transfer of `[0, bufSize - 1]` completes and fits. The window then starts at 0 with the cursor at 0 and holds the transferred bytes. |
| UrlOpen.OpenHonest | src/io.c:249-291 | Against an honest server, an opened remote handle holds the resource's first buffer and is ready for any read inside the resource. |
| UrlOpen.UrlRead | src/io.c:115-127 | A local read returns all `n` bytes or 0, depending on whether `fread` delivered a whole element, and makes no transfer. A remote read returns `n` exactly when every fetch it made completed, and 0 otherwise. A remote read makes no transfer exactly when the window can serve it, and then it returns `n` and only moves the cursor. After a successful read that fetched, the window holds the last reply at its start position. The fetches follow the read plan, and the bytes handed out are the resource's bytes at the cursor. |
| ChromNames.Strip | src/bw_import.cpp:12-18 | The stripper drops exactly three leading characters when the name starts with `chr`, `Chr` or `CHR`, and otherwise returns the name unchanged. The result is always a suffix of the input. |
| ChromNames.StripExamples | src/bw_import.cpp:12-18 | Only one prefix is dropped (`chrchr1` becomes `chr1`). Other casings such as `cHr1` are kept. `chr` strips to the empty string. |
| ChromNames.MatchesIffStripped | src/bw_import.cpp:42 | The match test holds exactly when the stripped forms are equal. Comparing the names as written adds nothing. |
| ChromNames.FirstMatchFrom | src/bw_import.cpp:37-46 | The index found is the first match at or after `from`, and none is found exactly when no name there matches. |
| ChromNames.FirstMatch | src/bw_import.cpp:36-47 | The index found is the first matching name in file order, and none is found exactly when no name matches. |
| ChromNames.Resolve | src/bw_import.cpp:33-47 | The resolution loop yields the first matching stored name, or the empty string. A non-empty result is a stored name that matches the query. |
| ChromNames.SameStrippedSameMatch | src/bw_import.cpp:34-46 | Queries that strip to the same name find the same first match, so `chr12`, `Chr12` and `12` resolve alike. |
| ChromNames.PrefixedAndBareResolveAlike | src/bw_import.cpp:34-46 | A query `chr` + `x` resolves like `x`, whenever `x` does not itself start with a prefix. |
| ChromNames.ResolvedIsStored | src/bw_import.cpp:33-49 | A non-empty resolved name is one of the file's names. The lookup reports not found exactly when nothing matches, or when the first match is an empty stored name. |
| ChromNames.EmptyNameReportsNotFound | src/bw_import.cpp:33-49 | Because the empty string doubles as "no match", an empty stored name that matches first is reported as not found. |
| ChromNames.JoinAppend | src/bw_import.cpp:53-56 | Joining two non-empty name lists puts exactly one `", "` between them. |
| ChromNames.PreviewExamples | src/bw_import.cpp:51-58 | Two names are listed as `chr1, chr2`. Six names are cut after the fifth and followed by `, ...`. |
| ChromNames.BuildPreview | src/bw_import.cpp:51-58 | The preview loop, which adds a separator after every shown name but the last, yields the reference preview: the first `min(n, 5)` names joined by `", "`, followed by `", ..."` exactly when there are more than five. |
| ChromNames.ShortListShownWhole | src/bw_import.cpp:52-57 | A file with at most five names lists all of them and adds no ellipsis. |
| BwImport.UncoveredIsZero | src/bw_import.cpp:69 | A base that no interval covers keeps its initial 0. |
| BwImport.LastCoveringWins | src/bw_import.cpp:73-85 | A covered base holds the value of the last interval in list order that covers it, with NaN written as 0. |
| BwImport.DisjointIntervalIgnored | src/bw_import.cpp:76 | An interval with `e <= qStart` or `s >= qEnd` changes no slot of the output. |
| BwImport.Paint | src/bw_import.cpp:69-86 | The painted vector has length `qEnd - qStart`. Slot `j` holds the value of the last interval covering base `qStart + j`, or 0. Every write lands inside the vector. |
| BwImport.ImportRegion | src/bw_import.cpp:64-88 | A valid request `[start, end]` is queried as `[start - 1, end)`. The result has `end - start + 1` slots, which fits a C `int`. It is all zeros when the query returns no interval list. |
| BwImport.Import | src/bw_import.cpp:21-92 | Invalid coordinates are rejected before `bwInit` and before any open. Then an init failure is reported, then an open failure, then a chromosome that does not resolve, together with its preview. A success uses the first matching stored name and paints its region. |

## Left out

- Curl option setup is not modelled: `bw_curl_apply_common_opts`, HTTP version, redirects, timeouts, keep-alive, TLS verification, authentication and the user callback. These configure a foreign library and have no behaviour to check here.
- Failures of `curl_easy_setopt`, `curl_easy_init` and `malloc` are not separate cases. Any transfer failure is the transport reporting `Failed`.
- `getContentLength`, `urlClose`, `fopen`, `fseek`, `fread`, `fclose` and stderr logging are left out. These are thin wrappers over libc and curl. Their outcomes are parameters (`fopenOk`, and the `local` bytes of `UrlRead`).
- The local-file branch of `urlSeek` is left out. It reduces to the status code of `fseek`.
- The `NOCURL` build variant is left out. It only has local files.
- RemoteWindow.Read: requires the requested span to lie inside the resource and the server to be honest. If a completed fetch yields no bytes, the loop in `src/io.c:82-87` refetches the same offset forever, which `FetchAtEndMakesNoProgress` exhibits. So the model does not describe reads that run past the end of the resource.
- RemoteWindow.FetchData: positions are unbounded naturals. The `size_t` wrap-around of every position sum is not modelled: `filePos += bufLen` (`src/io.c:54`), `filePos + bufSize - 1` (`src/io.c:60`) and the seek range end `pos + bufSize - 1` (`src/io.c:165`). Any of these would need a resource near 2^64 bytes.
- RemoteWindow.Seek: the same unmodelled `size_t` wrap-around of `pos + bufSize - 1` applies to the range a seek requests.
- UrlRead: the local branch takes the bytes `fread` delivered as a parameter. It does not model how much a short `fread` writes into the caller's buffer.
- libBigWig is not part of this model. The model takes these as inputs: the outcome of `bwInit` (`initOk`), the outcome of `bwOpen`, the chromosome list, and what `bwGetOverlappingIntervals` returns.
- BwImport.Paint: interval coordinates are unbounded naturals, not `uint32_t`. Both the query region and the clipped paint range lie below 2^31 for valid `int` coordinates, so no subtraction in the loop can wrap.
- Rcpp glue is left out: `NumericVector`, the formatting of `stop` messages and the R-level wrapper. Errors are values of `ImportError` that carry the pieces of the message.
- Floating point is not modelled. A value is `NaN` or a real number, and values are only copied, never combined.
- Handle caching, LRU eviction, alias tables, mutexes and one-time initialisation are left out. None of these exist in the code: `bw_import_impl` opens and closes the file on every call.

=== FILE: bw_import.dfy ===
/** `bw_import_impl` (src/bw_import.cpp): validate the 1-based inclusive
    query, open the bigWig file, resolve the chromosome name, and paint the
    overlapping intervals into a zero-initialised vector of per-base values.

    libBigWig is not part of this model: the file's chromosome list and the
    intervals a region query returns are inputs. */
module BwImport {
  import opened Common
  import opened ChromNames

  /** A stored value: not-a-number, or an ordinary number. */
  datatype Val = NaN | Num(x: real)

  /** One interval of a region query: the half-open base range
      `[start, end)` it covers and its value. */
  datatype Interval = Interval(start: nat, end: nat, value: Val)

  /** What an open bigWig file contributes here: its chromosome names
      (empty when the file has no chromosome list). */
  datatype BigWig = BigWig(chroms: seq<string>)

  /** The ways `bw_import_impl` stops with an error, in the order it checks them. */
  datatype ImportError =
    | InvalidCoordinates
    | InitFailed
    | OpenFailed(file: string)
    | ChromNotFound(chrom: string, file: string, available: string)

  datatype Outcome = Err(error: ImportError) | Imported(values: seq<real>)

  /** Range of the C `int` coordinates. */
  const IntMin: int := -0x8000_0000
  const IntMax: int := 0x7fff_ffff

  /** The number written into the output for a value: NaN becomes 0. */
  function Painted(v: Val): real
  {
    match v
    case NaN => 0.0
    case Num(x) => x
  }

  predicate Covers(iv: Interval, p: nat)
  {
    iv.start <= p < iv.end
  }

  /** Reference definition of one output slot: the value of the last
      interval in list order that covers base `p`, or 0 when none does. */
  function Cover(ivs: seq<Interval>, p: nat): real
  {
    if ivs == [] then 0.0
    else if Covers(ivs[|ivs| - 1], p) then Painted(ivs[|ivs| - 1].value)
    else Cover(ivs[..|ivs| - 1], p)
  }

  /** A base no interval covers keeps its initial 0. */
  lemma {:induction false} UncoveredIsZero(ivs: seq<Interval>, p: nat)
    requires forall i | 0 <= i < |ivs| :: !Covers(ivs[i], p)
    ensures Cover(ivs, p) == 0.0
    decreases |ivs|
  {
    if ivs != [] {
      var front := ivs[..|ivs| - 1];
      assert forall i | 0 <= i < |front| :: front[i] == ivs[i];
      UncoveredIsZero(front, p);
    }
  }

  /** A covered base holds the value of the last interval covering it:
      later intervals overwrite earlier ones. */
  lemma {:induction false} LastCoveringWins(ivs: seq<Interval>, p: nat, i: nat)
    requires i < |ivs| && Covers(ivs[i], p)
    requires forall j | i < j < |ivs| :: !Covers(ivs[j], p)
    ensures Cover(ivs, p) == Painted(ivs[i].value)
    decreases |ivs|
  {
    if i < |ivs| - 1 {
      var front := ivs[..|ivs| - 1];
      assert forall j | i < j < |front| :: front[j] == ivs[j];
      LastCoveringWins(front, p, i);
    }
  }

  /** An interval that ends at or before the query or starts at or after its
      end changes no slot of the output. */
  lemma DisjointIntervalIgnored(ivs: seq<Interval>, iv: Interval, qStart: nat, qEnd: nat)
    requires iv.end <= qStart || iv.start >= qEnd
    ensures forall p | qStart <= p < qEnd :: Cover(ivs + [iv], p) == Cover(ivs, p)
  {
    assert (ivs + [iv])[..|ivs|] == ivs;
  }

  /** The painting loop: for each interval in turn, skip it when it misses
      `[qStart, qEnd)`, otherwise overwrite the slots of the clipped range
      `[max(s, qStart), min(e, qEnd))` with its value. */
  method Paint(qStart: nat, qEnd: nat, ivs: seq<Interval>) returns (out: seq<real>)
    requires qStart <= qEnd
    ensures |out| == qEnd - qStart
    ensures forall j | 0 <= j < |out| :: out[j] == Cover(ivs, qStart + j)
  {
    out := seq(qEnd - qStart, _ => 0.0);
    var i := 0;
    while i < |ivs|
      invariant 0 <= i <= |ivs| && |out| == qEnd - qStart
      invariant forall j | 0 <= j < |out| :: out[j] == Cover(ivs[..i], qStart + j)
    {
      var s, e := ivs[i].start, ivs[i].end;
      assert ivs[..i + 1][..i] == ivs[..i];
      if !(e <= qStart || s >= qEnd) {
        var paintStart, paintEnd := Max(s, qStart), Min(e, qEnd);
        var v := if ivs[i].value.NaN? then 0.0 else ivs[i].value.x;
        var p := paintStart;
        while p < paintEnd
          invariant p == paintStart || paintStart < p <= paintEnd
          invariant |out| == qEnd - qStart
          invariant forall j | 0 <= j < |out| ::
            out[j] == (if paintStart <= qStart + j < p then v else Cover(ivs[..i], qStart + j))
        {
          var idx := p - qStart;
          out := out[idx := v];
          p := p + 1;
        }
      }
      i := i + 1;
    }
    assert ivs[..|ivs|] == ivs;
  }

  /** What a region query contributes to base `p`: nothing when the query
      returned no interval list. */
  function QueriedValue(ivs: Option<seq<Interval>>, p: nat): real
  {
    if ivs.Some? then Cover(ivs.value, p) else 0.0
  }

  /** The query region of a valid 1-based inclusive request `[start, end]`:
      the 0-based half-open `[start - 1, end)`, painted into a vector of
      `end - start + 1` zeros; a query that returns no list leaves it zero. */
  method ImportRegion(name: string, start: int, end: int, query: (string, nat, nat) -> Option<seq<Interval>>)
    returns (values: seq<real>)
    requires 1 <= start <= end <= IntMax
    ensures |values| == end - start + 1 <= IntMax
    ensures forall j | 0 <= j < |values| ::
      values[j] == QueriedValue(query(name, start - 1, end), start - 1 + j)
  {
    var qStart: nat, qEnd: nat := start - 1, end;
    var ivs := query(name, qStart, qEnd);
    if ivs.Some? {
      values := Paint(qStart, qEnd, ivs.value);
    } else {
      values := seq(end - start + 1, _ => 0.0);
    }
  }

  /** `bw_import_impl`. `initOk` is the outcome of `bwInit`, `file` that of
      `bwOpen`, and `query(name, qStart, qEnd)` that of
      `bwGetOverlappingIntervals` over the 0-based half-open region. */
  method Import(bwFile: string, chrom: string, start: int, end: int,
                initOk: bool, file: Option<BigWig>,
                query: (string, nat, nat) -> Option<seq<Interval>>)
    returns (r: Outcome)
    requires IntMin <= start <= IntMax && IntMin <= end <= IntMax
    ensures start < 1 || end < start ==> r == Err(InvalidCoordinates)
    ensures 1 <= start <= end && !initOk ==> r == Err(InitFailed)
    ensures 1 <= start <= end && initOk && file.None? ==> r == Err(OpenFailed(bwFile))
    ensures 1 <= start <= end && initOk && file.Some? ==>
      && (r.Err? <==> Resolved(chrom, file.value.chroms) == "")
      && (r.Err? ==> r.error == ChromNotFound(chrom, bwFile, PreviewText(file.value.chroms)))
    ensures r.Imported? ==>
      && 1 <= start <= end && initOk && file.Some?
      && var name := Resolved(chrom, file.value.chroms);
      && name in file.value.chroms && Matches(chrom, name)
      && |r.values| == end - start + 1 <= IntMax
      && forall j | 0 <= j < |r.values| ::
        r.values[j] == QueriedValue(query(name, start - 1, end), start - 1 + j)
  {
    if start < 1 || end < start {
      return Err(InvalidCoordinates);
    }
    if !initOk {
      return Err(InitFailed);
    }
    if file.None? {
      return Err(OpenFailed(bwFile));
    }
    var names := file.value.chroms;
    var name := Resolve(chrom, names);
    if name == "" {
      var available := BuildPreview(names);
      return Err(ChromNotFound(chrom, bwFile, available));
    }
    var values := ImportRegion(name, start, end, query);
    r := Imported(values);
  }
}

=== FILE: chrom_names.dfy ===
/** Chromosome names in `bw_import_impl` (src/bw_import.cpp): the `chr`
    prefix stripper, the first-match resolution of a query against the
    file's chromosome list, and the short list of available names shown
    when the query matches nothing. */
module ChromNames {
  import opened Common

  /** Whether `s` starts with one of the three spellings the stripper
      recognises. Any other casing, such as `cHr`, is not a prefix. */
  predicate HasChrPrefix(s: string)
  {
    |s| >= 3 && (s[..3] == "chr" || s[..3] == "Chr" || s[..3] == "CHR")
  }

  /** `strip_chr_prefix`: drops one recognised prefix, if there is one. */
  function Strip(s: string): (r: string)
    ensures HasChrPrefix(s) ==> |r| + 3 == |s|
    ensures !HasChrPrefix(s) ==> r == s
    ensures r == s[|s| - |r|..]
    ensures |r| < |s| <==> HasChrPrefix(s)
  {
    if HasChrPrefix(s) then s[3..] else s
  }

  /** Only one prefix goes, other casings stay, and a short string is kept. */
  lemma StripExamples()
    ensures Strip("chrchr1") == "chr1"
    ensures Strip("Chr12") == "12"
    ensures Strip("CHRX") == "X"
    ensures Strip("cHr1") == "cHr1"
    ensures Strip("chr") == ""
    ensures Strip("ch") == "ch"
  {
    assert "chrchr1"[..3] == "chr";
    assert "Chr12"[..3] == "Chr";
    assert "CHRX"[..3] == "CHR";
    assert "chr"[..3] == "chr";
    assert "cHr1"[..3] == "cHr";
  }

  /** The match test of the resolution loop: equal as written, or equal
      once both prefixes are stripped. */
  predicate Matches(query: string, name: string)
  {
    query == name || Strip(query) == Strip(name)
  }

  /** The first disjunct adds nothing: a name matches exactly when the two
      stripped forms agree. */
  lemma MatchesIffStripped(query: string, name: string)
    ensures Matches(query, name) <==> Strip(query) == Strip(name)
  {
  }

  /** The index of the first name from `from` on that matches `query`. */
  function FirstMatchFrom(query: string, names: seq<string>, from: nat): (r: Option<nat>)
    requires from <= |names|
    ensures r.Some? ==>
      && from <= r.value < |names| && Matches(query, names[r.value])
      && forall j | from <= j < r.value :: !Matches(query, names[j])
    ensures r.None? <==> forall j | from <= j < |names| :: !Matches(query, names[j])
    decreases |names| - from
  {
    if from == |names| then None
    else if Matches(query, names[from]) then Some(from)
    else FirstMatchFrom(query, names, from + 1)
  }

  /** The index of the first name that matches `query`, if any. */
  function FirstMatch(query: string, names: seq<string>): (r: Option<nat>)
    ensures r.Some? ==>
      && r.value < |names| && Matches(query, names[r.value])
      && forall j | 0 <= j < r.value :: !Matches(query, names[j])
    ensures r.None? <==> forall j | 0 <= j < |names| :: !Matches(query, names[j])
  {
    FirstMatchFrom(query, names, 0)
  }

  /** The name `bw_import_impl` resolves `query` to: the first matching
      name as stored in the file, or the empty string when none matches. */
  function Resolved(query: string, names: seq<string>): string
  {
    var m := FirstMatch(query, names);
    if m.Some? then names[m.value] else ""
  }

  /** The resolution loop: scans the names in order and stops at the first
      match. The empty string doubles as "no match". */
  method Resolve(query: string, names: seq<string>) returns (found: string)
    ensures found == Resolved(query, names)
    ensures found != "" ==> found in names && Matches(query, found)
    ensures (forall j | 0 <= j < |names| :: !Matches(query, names[j])) ==> found == ""
  {
    found := "";
    var stripped := Strip(query);
    var i := 0;
    while i < |names|
      invariant 0 <= i <= |names|
      invariant FirstMatch(query, names) == FirstMatchFrom(query, names, i)
    {
      var candidate := names[i];
      if query == candidate || stripped == Strip(candidate) {
        assert FirstMatchFrom(query, names, i) == Some(i);
        found := candidate;
        return;
      }
      i := i + 1;
    }
    assert FirstMatchFrom(query, names, i) == None;
  }

  /** Lookups agree for queries that strip to the same name, so `chr12`,
      `Chr12` and `12` all resolve to the same entry. */
  lemma {:induction false} SameStrippedSameMatch(q1: string, q2: string, names: seq<string>, from: nat)
    requires Strip(q1) == Strip(q2) && from <= |names|
    ensures FirstMatchFrom(q1, names, from) == FirstMatchFrom(q2, names, from)
    decreases |names| - from
  {
    if from < |names| {
      MatchesIffStripped(q1, names[from]);
      MatchesIffStripped(q2, names[from]);
      if !Matches(q1, names[from]) {
        SameStrippedSameMatch(q1, q2, names, from + 1);
      }
    }
  }

  /** A prefixed query and its bare form resolve alike, whenever the bare
      form does not itself start with a prefix. */
  lemma PrefixedAndBareResolveAlike(bare: string, names: seq<string>)
    requires !HasChrPrefix(bare)
    ensures Resolved("chr" + bare, names) == Resolved(bare, names)
  {
    var prefixed := "chr" + bare;
    assert prefixed[..3] == "chr" && prefixed[3..] == bare;
    SameStrippedSameMatch(prefixed, bare, names, 0);
  }

  /** The resolved name, when there is one, is a stored name that matches. */
  lemma ResolvedIsStored(query: string, names: seq<string>)
    ensures Resolved(query, names) != "" ==> Resolved(query, names) in names
    ensures Resolved(query, names) == "" <==>
      || (forall j | 0 <= j < |names| :: !Matches(query, names[j]))
      || names[FirstMatch(query, names).value] == ""
  {
  }

  /** An empty stored name can be the first match (for the queries that
      strip to nothing), and then the lookup reports "not found" although a
      name matched. */
  lemma EmptyNameReportsNotFound()
    ensures FirstMatch("chr", ["", "chr1"]) == Some(0)
    ensures Resolved("chr", ["", "chr1"]) == ""
  {
    assert HasChrPrefix("chr") by { assert "chr"[..3] == "chr"; }
    assert Matches("chr", "");
  }

  // ---------------------------------------------------------------------------
  // The "available examples" list
  // ---------------------------------------------------------------------------

  const Separator: string := ", "
  const Ellipsis: string := ", ..."
  const PreviewLimit: nat := 5

  /** The names joined by `", "`, no separator before the first. */
  function Join(names: seq<string>): string
  {
    if |names| == 0 then ""
    else if |names| == 1 then names[0]
    else Join(names[..|names| - 1]) + Separator + names[|names| - 1]
  }

  /** The text listed after "Available examples": the first five names, and
      a trailing `", ..."` when the file has more. */
  function PreviewText(names: seq<string>): string
  {
    Join(names[..Min(|names|, PreviewLimit)]) + (if |names| > PreviewLimit then Ellipsis else "")
  }

  /** A sanity property of the reference `Join`, independent of the loop
      that builds the preview: joining two non-empty lists puts exactly one
      separator between them. */
  lemma {:induction false} JoinAppend(a: seq<string>, b: seq<string>)
    requires a != [] && b != []
    ensures Join(a + b) == Join(a) + Separator + Join(b)
    decreases |b|
  {
    var ab := a + b;
    if |b| == 1 {
      assert ab[..|ab| - 1] == a;
    } else {
      var front := b[..|b| - 1];
      assert ab[..|ab| - 1] == a + front;
      JoinAppend(a, front);
    }
  }

  /** Two concrete previews: a long list is cut after five names. */
  lemma PreviewExamples()
    ensures PreviewText(["chr1", "chr2"]) == "chr1, chr2"
    ensures PreviewText(["1", "2", "3", "4", "5", "6"]) == "1, 2, 3, 4, 5, ..."
    ensures PreviewText([]) == ""
  {
    var six: seq<string> := ["1", "2", "3", "4", "5", "6"];
    var five := six[..5];
    assert five[..1] == ["1"] && Join(five[..1]) == "1";
    assert five[..2][..1] == five[..1] && Join(five[..2]) == "1, 2";
    assert five[..3][..2] == five[..2] && Join(five[..3]) == "1, 2, 3";
    assert five[..4][..3] == five[..3] && Join(five[..4]) == "1, 2, 3, 4";
    assert five[..4] == five[..|five| - 1] && Join(five) == "1, 2, 3, 4, 5";
    var two: seq<string> := ["chr1", "chr2"];
    assert two[..2] == two && two[..1] == ["chr1"];
  }

  /** The loop that builds the preview: each of the first `min(n, 5)` names,
      a separator after all but the last of them, then `", ..."` when the
      list is longer. */
  method BuildPreview(names: seq<string>) returns (available: string)
    ensures available == PreviewText(names)
  {
    available := "";
    if |names| > 0 {
      var shown := Min(|names|, PreviewLimit);
      var i := 0;
      while i < shown
        invariant 0 <= i <= shown
        invariant available == Join(names[..i]) + (if 0 < i < shown then Separator else "")
      {
        assert names[..i + 1][..i] == names[..i];
        available := available + names[i];
        if i < shown - 1 {
          available := available + Separator;
        }
        i := i + 1;
      }
      if |names| > PreviewLimit {
        available := available + Ellipsis;
      }
    }
  }

  /** A file with at most five names lists all of them, with no ellipsis. */
  lemma ShortListShownWhole(names: seq<string>)
    requires |names| <= PreviewLimit
    ensures PreviewText(names) == Join(names)
  {
    assert names[..|names|] == names;
  }
}

=== FILE: common.dfy ===
/** Small shared vocabulary: an optional value and integer minimum/maximum. */
module Common {

  /** A value that may be absent, in place of a null pointer or a "not found" index. */
  datatype Option<+T> = None | Some(value: T)

  function Min(a: int, b: int): int
  {
    if a < b then a else b
  }

  function Max(a: int, b: int): int
  {
    if a < b then b else a
  }
}

=== FILE: remote_window.dfy ===
/** The in-memory byte window of a remote URL handle (src/io.c): the write
    callback that fills it, the range fetch that refills it, the buffered read
    that drains it and the seek that moves inside it or resets it.

    The curl transfer is abstract: a `Transport` maps the requested inclusive
    byte range to a `Reply`, the chunks curl hands to the write callback, and
    whether `curl_easy_perform` reported success. */
module RemoteWindow {
  import opened Common

  type byte = b: int | 0 <= b < 0x100

  /** Absolute offset of the buffer's first byte. `Unset` is the `(size_t)-1`
      sentinel meaning that nothing has been fetched yet. */
  datatype Origin = Unset | At(pos: nat)

  /** The window fields of a URL handle. `data` is the valid prefix of the
      memory buffer, so the C field `bufLen` is `|data|`; `hasBuffer` says
      whether the memory buffer was allocated at all. */
  datatype Window = Window(
    filePos: Origin,
    data: seq<byte>,
    bufPos: nat,
    bufSize: nat,
    isCompressed: bool,
    hasBuffer: bool)
  {
    /** Where the buffer starts, or where the first fetch will start. */
    function Base(): nat
    {
      if filePos.At? then filePos.pos else 0
    }

    /** Absolute offset of the next byte a read hands out. */
    function Cursor(): nat
    {
      Base() + bufPos
    }

    /** The structural invariant every remote window keeps. */
    predicate Valid()
    {
      && 0 < bufSize
      && bufPos <= |data| <= bufSize
      && (filePos.Unset? ==> data == [] && bufPos == 0)
    }
  }

  /** An inclusive byte range `first-last`, as written into the Range header. */
  datatype Range = Range(first: nat, last: int)
  {
    function Size(): int
    {
      last - first + 1
    }
  }

  /** What one `curl_easy_perform` did: the chunks passed to the write
      callback, and whether the transfer itself succeeded. */
  datatype Reply = Completed(chunks: seq<seq<byte>>) | Failed(chunks: seq<seq<byte>>)

  type Transport = Range -> Reply

  /** Outcome of a transfer into a window. */
  datatype Transfer = Transfer(window: Window, ok: bool)

  /** Outcome of the write callback: the new window and the count it returns. */
  datatype Filled = Filled(window: Window, copied: nat)

  /** Outcome of `urlFetchData`: the window, the range it asked for, success. */
  datatype Fetch = Fetch(window: Window, request: Range, ok: bool)

  /** Outcome of a remote `urlSeek`: the window, the range requested if any. */
  datatype Sought = Sought(window: Window, request: Option<Range>, ok: bool)

  function Flatten(chunks: seq<seq<byte>>): seq<byte>
  {
    if chunks == [] then [] else chunks[0] + Flatten(chunks[1..])
  }

  /** The bytes of `resource` in `[offset, offset + count)`, clipped at its end. */
  function Slice(resource: seq<byte>, offset: nat, count: nat): seq<byte>
  {
    resource[Min(offset, |resource|)..Min(offset + count, |resource|)]
  }

  /** What an honest range server sends for `rg`. */
  function Served(resource: seq<byte>, rg: Range): seq<byte>
  {
    Slice(resource, rg.first, Max(rg.Size(), 0))
  }

  /** MODELLING ASSUMPTION: the server behind the transport honours byte
      ranges. A completed transfer delivers exactly the requested slice of
      `resource`; a failed one delivers some prefix of it. */
  ghost predicate Honest(t: Transport, resource: seq<byte>)
  {
    forall rg: Range :: HonestFor(t, resource, rg)
  }

  /** The server's reply to `rg` is honest. */
  ghost predicate HonestFor(t: Transport, resource: seq<byte>, rg: Range)
  {
    && Flatten(t(rg).chunks) <= Served(resource, rg)
    && (t(rg).Completed? ==> Flatten(t(rg).chunks) == Served(resource, rg))
  }

  /** The window's valid bytes are the resource's bytes at the window's place. */
  ghost predicate Agrees(w: Window, resource: seq<byte>)
  {
    w.data != [] ==> w.Base() + |w.data| <= |resource| && w.data == resource[w.Base()..w.Base() + |w.data|]
  }

  /** Whether `bytes` can be appended to the window without truncation. */
  predicate Fits(w: Window, bytes: seq<byte>)
  {
    |w.data| + |bytes| <= w.bufSize && (w.hasBuffer || bytes == [])
  }

  // ---------------------------------------------------------------------------
  // bwFillBuffer: the curl write callback
  // ---------------------------------------------------------------------------

  /** Appends as much of `chunk` as the buffer still has room for and returns
      the count appended. Without a memory buffer it appends nothing. */
  function FillBuffer(w: Window, chunk: seq<byte>): (r: Filled)
    requires |w.data| <= w.bufSize
    ensures r.window == w.(data := r.window.data)
    ensures |r.window.data| <= w.bufSize
    ensures w.data <= r.window.data <= w.data + chunk
    ensures |r.window.data| == |w.data| + r.copied
    ensures r.copied < |chunk| ==> !w.hasBuffer || |r.window.data| == w.bufSize
    ensures !w.hasBuffer ==> r.copied == 0 && r.window == w
    ensures w.hasBuffer && |w.data| + |chunk| <= w.bufSize ==> r.copied == |chunk|
  {
    if !w.hasBuffer then Filled(w, 0)
    else
      var room := w.bufSize - |w.data|;
      var copied := if |chunk| > room then room else |chunk|;
      Filled(w.(data := w.data + chunk[..copied]), copied)
  }

  /** A transfer delivered as one chunk: the bytes that fit are appended, and
      the transfer survives only when all of them fit. */
  function Capped(w: Window, bytes: seq<byte>): (r: Transfer)
    requires |w.data| <= w.bufSize
    ensures r.window == w.(data := r.window.data)
    ensures |r.window.data| <= w.bufSize
    ensures w.data <= r.window.data <= w.data + bytes
    ensures r.ok <==> Fits(w, bytes)
    ensures r.ok ==> r.window.data == w.data + bytes
    ensures !r.ok && w.hasBuffer ==> |r.window.data| == w.bufSize
    ensures !w.hasBuffer ==> r.window == w
  {
    var f := FillBuffer(w, bytes);
    Transfer(f.window, f.copied == |bytes|)
  }

  /** Feeding a first chunk and then the rest agrees with feeding both as one. */
  lemma CappedStep(w: Window, c: seq<byte>, rest: seq<byte>)
    requires |w.data| <= w.bufSize
    ensures var f := FillBuffer(w, c);
      && (f.copied < |c| ==> Transfer(f.window, false) == Capped(w, c + rest))
      && (f.copied == |c| ==> Capped(f.window, rest) == Capped(w, c + rest))
  {
    var f := FillBuffer(w, c);
    var whole := Capped(w, c + rest);
    if w.hasBuffer {
      if f.copied < |c| {
        assert (c + rest)[..f.copied] == c[..f.copied];
      } else {
        var g := FillBuffer(f.window, rest);
        assert (c + rest)[..|c| + g.copied] == c + rest[..g.copied];
        assert f.window.data + rest[..g.copied] == w.data + (c + rest)[..|c| + g.copied];
      }
    }
  }

  /** Feeds a transfer's chunks to the write callback in order. libcurl aborts
      the transfer (with a write error) as soon as the callback returns less
      than it was given, so however the bytes are split into chunks, the
      outcome is that of delivering them as one chunk. */
  function Deliver(w: Window, chunks: seq<seq<byte>>): (r: Transfer)
    requires |w.data| <= w.bufSize
    ensures r == Capped(w, Flatten(chunks))
    decreases |chunks|
  {
    if chunks == [] then
      assert w.data + [] == w.data;
      Transfer(w, true)
    else
      var f := FillBuffer(w, chunks[0]);
      CappedStep(w, chunks[0], Flatten(chunks[1..]));
      if f.copied < |chunks[0]| then Transfer(f.window, false)
      else Deliver(f.window, chunks[1..])
  }

  /** One `curl_easy_perform` into the window. */
  function Perform(w: Window, reply: Reply): (r: Transfer)
    requires |w.data| <= w.bufSize
    ensures r.window == Capped(w, Flatten(reply.chunks)).window
    ensures r.ok <==> reply.Completed? && Fits(w, Flatten(reply.chunks))
  {
    var d := Deliver(w, reply.chunks);
    Transfer(d.window, d.ok && reply.Completed?)
  }

  // ---------------------------------------------------------------------------
  // urlFetchData
  // ---------------------------------------------------------------------------

  /** Where the next fetch starts: just past the current window, or at 0 when
      nothing has been fetched yet. */
  function NextOrigin(w: Window): nat
  {
    if w.filePos.At? then w.filePos.pos + |w.data| else 0
  }

  /** Advances the window past its current contents, empties it, and fetches
      `size` bytes starting there. */
  function FetchData(w: Window, size: nat, t: Transport): (r: Fetch)
    requires |w.data| <= w.bufSize
    ensures r.request.first == NextOrigin(w) && r.request.Size() == size
    ensures r.window.filePos == At(r.request.first) && r.window.bufPos == 0
    ensures r.window == w.(filePos := r.window.filePos, bufPos := 0, data := r.window.data)
    ensures |r.window.data| <= w.bufSize
    ensures r.window.data <= Flatten(t(r.request).chunks)
    ensures r.ok <==> t(r.request).Completed? && Fits(w.(data := []), Flatten(t(r.request).chunks))
    ensures r.ok ==> r.window.data == Flatten(t(r.request).chunks)
    ensures w.Valid() && w.bufPos == |w.data| ==> r.window.Cursor() == w.Cursor()
  {
    var origin := NextOrigin(w);
    var reset := w.(filePos := At(origin), bufPos := 0, data := []);
    var request := Range(origin, origin + size - 1);
    var p := Perform(reset, t(request));
    Fetch(p.window, request, p.ok)
  }

  /** A prefix of a slice of the resource lies in the resource at the same offset. */
  lemma SlicePrefix(resource: seq<byte>, offset: nat, count: nat, p: seq<byte>)
    requires p <= Slice(resource, offset, count)
    ensures p != [] ==> offset + |p| <= |resource| && p == resource[offset..offset + |p|]
  {
    var s := Slice(resource, offset, count);
    if p != [] {
      assert offset < |resource|;
      assert p == s[..|p|];
    }
  }

  /** Against an honest server, bytes kept from the reply to `rg` (a prefix
      of what was sent, all of it on success, and success meaning a
      completed reply that fitted in `cap` bytes) are the resource's bytes at
      `rg.first`; when `rg` fits in `cap`, success is exactly completion. */
  lemma HonestReply(t: Transport, resource: seq<byte>, rg: Range, kept: seq<byte>, ok: bool, cap: nat)
    requires Honest(t, resource) && rg.Size() <= cap
    requires kept <= Flatten(t(rg).chunks)
    requires ok <==> t(rg).Completed? && |Flatten(t(rg).chunks)| <= cap
    requires ok ==> kept == Flatten(t(rg).chunks)
    ensures kept != [] ==> rg.first + |kept| <= |resource| && kept == resource[rg.first..rg.first + |kept|]
    ensures ok <==> t(rg).Completed?
    ensures ok ==> kept == Served(resource, rg)
  {
    assert HonestFor(t, resource, rg);
    SlicePrefix(resource, rg.first, Max(rg.Size(), 0), kept);
  }

  /** Against an honest server, a fetch of `size` bytes into a window that
      can hold them leaves exactly the resource's bytes at the new origin. */
  lemma HonestFetch(w: Window, size: nat, t: Transport, resource: seq<byte>)
    requires |w.data| <= w.bufSize && w.hasBuffer && size <= w.bufSize
    requires Honest(t, resource)
    ensures var f := FetchData(w, size, t);
      && Agrees(f.window, resource)
      && (f.ok <==> t(f.request).Completed?)
      && (f.ok ==> f.window.data == Slice(resource, f.request.first, size))
      && (f.ok && f.request.first < |resource| && 0 < size ==> 0 < |f.window.data|)
  {
    var f := FetchData(w, size, t);
    HonestReply(t, resource, f.request, f.window.data, f.ok, w.bufSize);
    assert Served(resource, f.request) == Slice(resource, f.request.first, size);
  }

  /** Why reads must stay inside the resource: at its end, a completed fetch
      of an empty window yields nothing, so the window is unchanged and the
      read loop would fetch the same offset again forever. */
  lemma FetchAtEndMakesNoProgress(w: Window, t: Transport, resource: seq<byte>)
    requires w.Valid() && w.hasBuffer && w.data == [] && w.filePos == At(|resource|)
    requires Honest(t, resource)
    requires t(Range(|resource|, |resource| + w.bufSize - 1)).Completed?
    ensures FetchData(w, w.bufSize, t) == Fetch(w, Range(|resource|, |resource| + w.bufSize - 1), true)
  {
    var rg := Range(|resource|, |resource| + w.bufSize - 1);
    assert HonestFor(t, resource, rg);
    assert Served(resource, rg) == [];
  }

  // ---------------------------------------------------------------------------
  // url_fread
  // ---------------------------------------------------------------------------

  /** Size of a refetch when the buffer runs dry with `remaining` bytes owed:
      never more than is owed for a compressed stream, a full buffer otherwise. */
  function RefetchSize(w: Window, remaining: nat): (r: nat)
    requires 0 < w.bufSize && 0 < remaining
    ensures 1 <= r <= w.bufSize
    ensures w.isCompressed ==> r <= remaining && (r == remaining || r == w.bufSize)
    ensures !w.isCompressed ==> r == w.bufSize
  {
    if w.isCompressed then (if remaining < w.bufSize then remaining else w.bufSize)
    else w.bufSize
  }

  /** Everything a remote read needs: a consistent window over an honest
      server, and a request that stays inside the resource. */
  ghost predicate ReadableSpan(w: Window, t: Transport, resource: seq<byte>, n: nat)
  {
    && w.Valid() && w.hasBuffer
    && Honest(t, resource)
    && Agrees(w, resource)
    && w.Cursor() + n <= |resource|
  }

  /** The next `k` buffered bytes are the resource's bytes at the cursor. */
  lemma TakeFromWindow(w: Window, resource: seq<byte>, k: nat)
    requires w.Valid() && Agrees(w, resource) && 0 < |w.data| && w.bufPos + k <= |w.data|
    ensures w.Cursor() + k <= |resource|
    ensures w.data[w.bufPos..w.bufPos + k] == resource[w.Cursor()..w.Cursor() + k]
  {
    var b := w.Base();
    assert b + |w.data| <= |resource|;
    assert w.data == resource[b..b + |w.data|];
    var taken, wanted := w.data[w.bufPos..w.bufPos + k], resource[w.Cursor()..w.Cursor() + k];
    forall i | 0 <= i < k
      ensures taken[i] == wanted[i]
    {
      assert taken[i] == w.data[w.bufPos + i];
    }
  }

  /** Copying the next `k` buffered bytes extends a read of the resource
      from `s` by the resource's next `k` bytes. */
  lemma CopyExtendsPrefix(w: Window, resource: seq<byte>, s: nat, out: seq<byte>, k: nat)
    requires w.Valid() && Agrees(w, resource) && 0 < |w.data| && w.bufPos + k <= |w.data|
    requires w.Cursor() == s + |out| && s + |out| <= |resource| && out == resource[s..s + |out|]
    ensures s + |out| + k <= |resource|
    ensures out + w.data[w.bufPos..w.bufPos + k] == resource[s..s + |out| + k]
  {
    var m := s + |out|;
    TakeFromWindow(w, resource, k);
    assert resource[s..m] + resource[m..m + k] == resource[s..m + k];
  }

  /** What the read loop keeps while it owes bytes: a consistent window, the
      bytes handed out so far are the resource's bytes from `s` on, and the
      cursor sits right after them. */
  ghost predicate Progress(w: Window, w0: Window, resource: seq<byte>, s: nat, n: nat, out: seq<byte>)
  {
    && w.Valid() && w.hasBuffer && Agrees(w, resource)
    && w.bufSize == w0.bufSize && w.isCompressed == w0.isCompressed
    && |out| <= n && s + n <= |resource|
    && out == resource[s..s + |out|]
    && w.Cursor() == s + |out|
  }

  /** Copying the next `k` buffered bytes keeps the read loop's invariant,
      with the cursor moved past them. */
  lemma CopyKeepsProgress(w: Window, w0: Window, resource: seq<byte>, s: nat, n: nat, out: seq<byte>, k: nat)
    requires Progress(w, w0, resource, s, n, out) && 0 < |w.data| && w.bufPos + k <= |w.data| && |out| + k <= n
    ensures Progress(w.(bufPos := w.bufPos + k), w0, resource, s, n, out + w.data[w.bufPos..w.bufPos + k])
  {
    CopyExtendsPrefix(w, resource, s, out, k);
  }

  /** `urlFetchData` on a drained window while bytes are still owed, against
      an honest server: the read continues exactly where it stopped, and a
      successful fetch yields at least one byte. */
  method Refill(w: Window, size: nat, t: Transport, ghost resource: seq<byte>,
                ghost w0: Window, ghost s: nat, ghost n: nat, ghost out: seq<byte>) returns (f: Fetch)
    requires Progress(w, w0, resource, s, n, out) && w.bufPos == |w.data| && |out| < n
    requires 1 <= size <= w.bufSize && Honest(t, resource)
    ensures Progress(f.window, w0, resource, s, n, out)
    ensures f.request.first == s + |out| && f.request.Size() == size
    ensures f.request.first == NextOrigin(w) && f.window.filePos == At(f.request.first)
    ensures f.ok <==> t(f.request).Completed?
    ensures f.ok ==> f.window.bufPos < |f.window.data| && f.window.data == Flatten(t(f.request).chunks)
  {
    f := FetchData(w, size, t);
    HonestFetch(w, size, t, resource);
  }

  /** One pass of the read loop: fetch into an empty window, or copy the rest
      of the window and refetch, or copy what is owed from the window. The
      fetch made, if any, is returned so that the caller can stop on failure. */
  method ReadStep(w: Window, remaining: nat, t: Transport, out: seq<byte>,
                  ghost resource: seq<byte>, ghost w0: Window, ghost s: nat, ghost n: nat)
    returns (w': Window, remaining': nat, out': seq<byte>, fetched: Option<Fetch>)
    requires Progress(w, w0, resource, s, n, out) && remaining + |out| == n && 0 < remaining
    requires Honest(t, resource)
    ensures Progress(w', w0, resource, s, n, out') && remaining' + |out'| == n
    ensures fetched.None? <==> remaining' == 0
    ensures fetched.None? ==> w' == w.(bufPos := w'.bufPos)
    ensures fetched.None? ==> 0 < |w.data| && w.bufPos + remaining <= |w.data|
    ensures 0 < |w.data| && w.bufPos + remaining <= |w.data| ==>
      fetched.None? && w' == w.(bufPos := w.bufPos + remaining)
    ensures fetched.Some? ==>
      && w' == fetched.value.window
      && fetched.value.request.first == NextOrigin(w) == s + |out'|
      && fetched.value.request.Size() == (if |w.data| == 0 then w.bufSize else RefetchSize(w, remaining'))
      && 1 <= fetched.value.request.Size() <= w0.bufSize
      && s <= fetched.value.request.first < s + n
      && (fetched.value.ok <==> t(fetched.value.request).Completed?)
      && (fetched.value.ok ==>
        && w'.filePos == At(fetched.value.request.first)
        && w'.data == Flatten(t(fetched.value.request).chunks) && 0 < |w'.data|)
    ensures fetched.None? || fetched.value.ok ==>
      || remaining' < remaining
      || (remaining' == remaining && w.bufPos == |w.data| && w'.bufPos < |w'.data|)
  {
    if |w.data| == 0 {
      var f := Refill(w, w.bufSize, t, resource, w0, s, n, out);
      w', remaining', out', fetched := f.window, remaining, out, Some(f);
    } else if |w.data| < w.bufPos + remaining {
      var chunk := |w.data| - w.bufPos;
      CopyKeepsProgress(w, w0, resource, s, n, out, chunk);
      out' := out + w.data[w.bufPos..w.bufPos + chunk];
      remaining' := remaining - chunk;
      w', fetched := w, None;
      if remaining' > 0 {
        var fetchSize := RefetchSize(w, remaining');
        var f := Refill(w.(bufPos := |w.data|), fetchSize, t, resource, w0, s, n, out');
        w', fetched := f.window, Some(f);
      }
    } else {
      CopyKeepsProgress(w, w0, resource, s, n, out, remaining);
      out' := out + w.data[w.bufPos..w.bufPos + remaining];
      w' := w.(bufPos := w.bufPos + remaining);
      remaining', fetched := 0, None;
    }
  }

  /** The ranges a read of `n` bytes from `w0` asks for, in order. The first
      starts where the window ends and asks for a full buffer when the
      window was empty. Every later one starts where the bytes of the
      previous reply end. Every refetch after a drained window asks for
      `RefetchSize` of the bytes still owed at its start. */
  predicate Planned(w0: Window, n: nat, t: Transport, requests: seq<Range>)
    requires 0 < w0.bufSize
  {
    forall i | 0 <= i < |requests| ::
      && w0.Cursor() <= requests[i].first < w0.Cursor() + n
      && requests[i].first == (if i == 0 then NextOrigin(w0)
                               else requests[i - 1].first + |Flatten(t(requests[i - 1]).chunks)|)
      && requests[i].Size() == (if i == 0 && |w0.data| == 0 then w0.bufSize
                                else RefetchSize(w0, w0.Cursor() + n - requests[i].first))
  }

  /** A fetch made from the window the previous fetch left (or from the
      starting window, for the first one) extends the plan. */
  lemma PlannedExtend(w0: Window, n: nat, t: Transport, requests: seq<Range>, w: Window, r: Range)
    requires 0 < w0.bufSize && Planned(w0, n, t, requests)
    requires w.bufSize == w0.bufSize && w.isCompressed == w0.isCompressed
    requires requests == [] ==> w == w0
    requires requests != [] ==>
      && w.filePos == At(requests[|requests| - 1].first)
      && w.data == Flatten(t(requests[|requests| - 1]).chunks) && 0 < |w.data|
    requires r.first == NextOrigin(w) && w0.Cursor() <= r.first < w0.Cursor() + n
    requires r.Size() == (if |w.data| == 0 then w.bufSize else RefetchSize(w, w0.Cursor() + n - r.first))
    ensures Planned(w0, n, t, requests + [r])
  {
    var rs := requests + [r];
    forall i | 0 <= i < |rs|
      ensures rs[i].first == (if i == 0 then NextOrigin(w0) else rs[i - 1].first + |Flatten(t(rs[i - 1]).chunks)|)
      ensures rs[i].Size() == (if i == 0 && |w0.data| == 0 then w0.bufSize
                               else RefetchSize(w0, w0.Cursor() + n - rs[i].first))
    {
      if i < |requests| {
        assert rs[i] == requests[i];
        if 0 < i { assert rs[i - 1] == requests[i - 1]; }
      } else if 0 < i {
        assert rs[i - 1] == requests[|requests| - 1];
      }
    }
  }

  /** Every planned range lies inside the requested span and asks for
      between 1 and `bufSize` bytes. */
  lemma PlannedBounds(w0: Window, n: nat, t: Transport, requests: seq<Range>)
    requires 0 < w0.bufSize && Planned(w0, n, t, requests)
    ensures forall i | 0 <= i < |requests| ::
      && 1 <= requests[i].Size() <= w0.bufSize
      && w0.Cursor() <= requests[i].first < w0.Cursor() + n
  {
  }

  /** What the read loop keeps between passes: the read invariant, every
      fetch so far completed and followed the plan, the window is the one
      the last fetch left (or the starting one, before any fetch), and a
      read the starting window could serve made no fetch. */
  ghost predicate Reading(w0: Window, t: Transport, resource: seq<byte>, s: nat, n: nat,
                          w: Window, remaining: nat, out: seq<byte>, requests: seq<Range>)
  {
    && Progress(w, w0, resource, s, n, out) && remaining + |out| == n
    && 0 < w0.bufSize && s == w0.Cursor()
    && (forall i | 0 <= i < |requests| :: t(requests[i]).Completed?)
    && Planned(w0, n, t, requests)
    && (requests == [] ==> remaining == 0 || (w == w0 && out == []))
    && (requests != [] ==>
      && w.filePos == At(requests[|requests| - 1].first)
      && w.data == Flatten(t(requests[|requests| - 1]).chunks) && 0 < |w.data|)
    && (w0.bufPos + n <= |w0.data| ==>
      requests == [] && (remaining == 0 ==> w == w0.(bufPos := w0.bufPos + n)))
    && (requests == [] && remaining == 0 ==> w0.bufPos + n <= |w0.data|)
  }

  /** How the read loop stops early: the read invariant still holds for the
      bytes handed out, the fetches followed the plan, and only the last
      of them failed. A read the starting window could serve never gets here. */
  ghost predicate ReadFailed(w0: Window, t: Transport, resource: seq<byte>, s: nat, n: nat,
                             w: Window, out: seq<byte>, requests: seq<Range>)
  {
    && Progress(w, w0, resource, s, n, out)
    && 0 < w0.bufSize && Planned(w0, n, t, requests)
    && requests != [] && !t(requests[|requests| - 1]).Completed?
    && (forall i | 0 <= i < |requests| - 1 :: t(requests[i]).Completed?)
    && !(w0.bufPos + n <= |w0.data|)
  }

  /** One pass of the read loop with its bookkeeping: the fetch it made, if
      any, is appended to the requests, and a failed fetch ends the read. */
  method ReadPass(w: Window, remaining: nat, t: Transport, out: seq<byte>, requests: seq<Range>,
                  ghost resource: seq<byte>, ghost w0: Window, ghost s: nat, ghost n: nat)
    returns (w': Window, remaining': nat, out': seq<byte>, requests': seq<Range>, failed: bool)
    requires Reading(w0, t, resource, s, n, w, remaining, out, requests) && 0 < remaining
    requires Honest(t, resource)
    ensures !failed ==> Reading(w0, t, resource, s, n, w', remaining', out', requests')
    ensures !failed ==>
      || remaining' < remaining
      || (remaining' == remaining && w.bufPos == |w.data| && w'.bufPos < |w'.data|)
    ensures failed ==> ReadFailed(w0, t, resource, s, n, w', out', requests')
  {
    var fetched;
    w', remaining', out', fetched := ReadStep(w, remaining, t, out, resource, w0, s, n);
    requests', failed := requests, false;
    if fetched.Some? {
      PlannedExtend(w0, n, t, requests, w, fetched.value.request);
      requests' := requests + [fetched.value.request];
      failed := !fetched.value.ok;
    }
  }

  /** What a read that owes nothing more has achieved. */
  lemma ReadingDone(w0: Window, t: Transport, resource: seq<byte>, n: nat,
                    w: Window, out: seq<byte>, requests: seq<Range>)
    requires Reading(w0, t, resource, w0.Cursor(), n, w, 0, out, requests)
    ensures |out| == n && out == resource[w0.Cursor()..w0.Cursor() + n]
    ensures w.Cursor() == w0.Cursor() + n
    ensures w.Valid() && w.hasBuffer && Agrees(w, resource)
    ensures w.bufSize == w0.bufSize && w.isCompressed == w0.isCompressed
    ensures forall i | 0 <= i < |requests| :: t(requests[i]).Completed?
    ensures w0.bufPos + n <= |w0.data| ==> requests == [] && w == w0.(bufPos := w0.bufPos + n)
    ensures requests == [] ==> w0.bufPos + n <= |w0.data|
    ensures requests != [] ==>
      && w.filePos == At(requests[|requests| - 1].first)
      && w.data == Flatten(t(requests[|requests| - 1]).chunks)
    ensures Planned(w0, n, t, requests)
  {
  }

  /** What a read stopped by a failed fetch has achieved. */
  lemma ReadFailedEnds(w0: Window, t: Transport, resource: seq<byte>, n: nat,
                       w: Window, out: seq<byte>, requests: seq<Range>)
    requires ReadFailed(w0, t, resource, w0.Cursor(), n, w, out, requests)
    ensures |out| <= n && out == resource[w0.Cursor()..w0.Cursor() + |out|]
    ensures w.Cursor() == w0.Cursor() + |out|
    ensures w.Valid() && w.hasBuffer && Agrees(w, resource)
    ensures w.bufSize == w0.bufSize && w.isCompressed == w0.isCompressed
    ensures !(forall i | 0 <= i < |requests| :: t(requests[i]).Completed?)
    ensures forall i | 0 <= i < |requests| - 1 :: t(requests[i]).Completed?
    ensures !(w0.bufPos + n <= |w0.data|) && Planned(w0, n, t, requests)
  {
  }

  /** Reads `n` bytes at the cursor, draining the window and refetching as
      needed. Returns `n` and the bytes read, or 0 as soon as a fetch fails. */
  method Read(w0: Window, n: nat, t: Transport, ghost resource: seq<byte>)
    returns (got: nat, out: seq<byte>, w: Window, requests: seq<Range>)
    requires ReadableSpan(w0, t, resource, n)
    ensures got == n || got == 0
    ensures got == n <==> forall i | 0 <= i < |requests| :: t(requests[i]).Completed?
    ensures forall i | 0 <= i < |requests| - 1 :: t(requests[i]).Completed?
    ensures |out| <= n && out == resource[w0.Cursor()..w0.Cursor() + |out|]
    ensures got == n ==> |out| == n
    ensures w.Cursor() == w0.Cursor() + |out|
    ensures w.Valid() && w.hasBuffer && Agrees(w, resource)
    ensures w.bufSize == w0.bufSize && w.isCompressed == w0.isCompressed
    ensures forall i | 0 <= i < |requests| ::
      && 1 <= requests[i].Size() <= w0.bufSize
      && w0.Cursor() <= requests[i].first < w0.Cursor() + n
    ensures w0.bufPos + n <= |w0.data| ==>
      requests == [] && got == n && w == w0.(bufPos := w0.bufPos + n)
    ensures requests == [] <==> w0.bufPos + n <= |w0.data|
    ensures got == n && requests != [] ==>
      && w.filePos == At(requests[|requests| - 1].first)
      && w.data == Flatten(t(requests[|requests| - 1]).chunks)
    ensures Planned(w0, n, t, requests)
  {
    ghost var s := w0.Cursor();
    w := w0;
    out := [];
    requests := [];
    var remaining: nat := n;
    while remaining > 0
      invariant Reading(w0, t, resource, s, n, w, remaining, out, requests)
      decreases remaining, if w.bufPos < |w.data| then 0 else 1
    {
      var failed;
      w, remaining, out, requests, failed := ReadPass(w, remaining, t, out, requests, resource, w0, s, n);
      if failed {
        ReadFailedEnds(w0, t, resource, n, w, out, requests);
        PlannedBounds(w0, n, t, requests);
        return 0, out, w, requests;
      }
    }
    ReadingDone(w0, t, resource, n, w, out, requests);
    PlannedBounds(w0, n, t, requests);
    got := n;
  }

  // ---------------------------------------------------------------------------
  // urlSeek, remote branch
  // ---------------------------------------------------------------------------

  /** Whether `pos` is one of the bytes the window currently holds. */
  predicate InWindow(w: Window, pos: nat)
  {
    w.filePos.At? && w.filePos.pos <= pos < w.filePos.pos + |w.data|
  }

  /** Moves the cursor to `pos`: inside the window without any transfer,
      otherwise by resetting the window at `pos` and fetching a full buffer
      from there at once. */
  function Seek(w: Window, pos: nat, t: Transport): (r: Sought)
    requires w.Valid()
    ensures r.window.Valid() && r.window.Cursor() == pos
    ensures r.window.bufSize == w.bufSize && r.window.isCompressed == w.isCompressed
    ensures r.window.hasBuffer == w.hasBuffer
    ensures r.request.None? <==> InWindow(w, pos)
    ensures InWindow(w, pos) ==> r.ok && r.window.data == w.data && r.window.filePos == w.filePos
    ensures !InWindow(w, pos) ==>
      && r.request == Some(Range(pos, pos + w.bufSize - 1))
      && r.window.filePos == At(pos) && r.window.bufPos == 0
      && r.window.data <= Flatten(t(r.request.value).chunks)
      && (r.ok <==> t(r.request.value).Completed? && Fits(w.(data := []), Flatten(t(r.request.value).chunks)))
      && (r.ok ==> r.window.data == Flatten(t(r.request.value).chunks))
  {
    if w.filePos.Unset? || pos < w.filePos.pos || pos >= w.filePos.pos + |w.data| then
      var reset := w.(filePos := At(pos), data := [], bufPos := 0);
      var request := Range(pos, pos + w.bufSize - 1);
      var p := Perform(reset, t(request));
      Sought(p.window, Some(request), p.ok)
    else
      Sought(w.(bufPos := pos - w.filePos.pos), None, true)
  }

  /** A seek keeps the window consistent with an honest server, and a seek
      that had to fetch holds the resource's bytes from `pos` on. */
  lemma SeekKeepsAgreement(w: Window, pos: nat, t: Transport, resource: seq<byte>)
    requires w.Valid() && w.hasBuffer && Agrees(w, resource)
    requires Honest(t, resource)
    ensures var r := Seek(w, pos, t);
      && Agrees(r.window, resource)
      && (r.request.Some? ==> (r.ok <==> t(r.request.value).Completed?))
      && (r.request.Some? && r.ok ==> r.window.data == Slice(resource, pos, w.bufSize))
  {
    if !InWindow(w, pos) {
      var r := Seek(w, pos, t);
      HonestReply(t, resource, r.request.value, r.window.data, r.ok, w.bufSize);
    }
  }

  /** Seeking to the same position again is a pure cursor move that leaves
      the window as it is, once the first seek holds any bytes. */
  lemma SeekAgainStaysInWindow(w: Window, pos: nat, t: Transport, t': Transport)
    requires w.Valid()
    requires Seek(w, pos, t).ok && Seek(w, pos, t).window.data != []
    ensures Seek(Seek(w, pos, t).window, pos, t') == Sought(Seek(w, pos, t).window, None, true)
  {
    var r := Seek(w, pos, t);
    assert InWindow(r.window, pos);
  }
}

=== FILE: url_open.dfy ===
/** Opening a URL handle (src/io.c `urlOpen`): classify the name as a local
    file or an HTTP/HTTPS/FTP resource, and for a remote one make the warm-up
    transfer of the first buffer. Also the `urlRead` dispatch between the two
    kinds of handle. */
module UrlOpen {
  import opened Common
  import opened RemoteWindow

  /** The handle kinds, in the order of libBigWig's `BWG_FILE`, `BWG_HTTP`, ... */
  datatype SourceType = File | Http | Https | Ftp

  /** An open handle: its kind and its window (unused for a local file). */
  datatype Url = Url(kind: SourceType, window: Window)

  const NUL: char := '\0'

  /** The character a C string yields at the start of `s`: its terminator
      once `s` is exhausted. */
  function Head(s: string): char
  {
    if s == [] then NUL else s[0]
  }

  function Tail(s: string): string
  {
    if s == [] then [] else s[1..]
  }

  /** `strncmp(a, b, n) == 0`: the first `n` characters agree, comparing
      character by character and stopping early at a common terminator. */
  function StrNEqual(a: string, b: string, n: nat): bool
    decreases n
  {
    if n == 0 then true
    else if Head(a) != Head(b) then false
    else if Head(a) == NUL then true
    else StrNEqual(Tail(a), Tail(b), n - 1)
  }

  /** `strncmp(name, scheme, strlen(scheme)) == 0`. */
  predicate SchemeMatches(name: string, scheme: string)
  {
    StrNEqual(name, scheme, |scheme|)
  }

  /** Comparing against a literal over its whole length is a prefix test. */
  lemma {:induction false} StrNEqualIsPrefix(a: string, lit: string)
    requires NUL !in lit
    ensures SchemeMatches(a, lit) <==> lit <= a
    decreases |lit|
  {
    if lit != [] {
      assert lit[0] != NUL;
      if a == [] {
        assert Head(a) != Head(lit);
      } else if a[0] == lit[0] {
        assert NUL !in lit[1..] by {
          forall i | 0 <= i < |lit[1..]| ensures lit[1..][i] != NUL {
            assert lit[1..][i] == lit[i + 1];
          }
        }
        StrNEqualIsPrefix(a[1..], lit[1..]);
        assert lit <= a <==> lit[1..] <= a[1..] by {
          if lit[1..] <= a[1..] {
            assert lit == [lit[0]] + lit[1..];
            assert a[..|lit|] == [a[0]] + a[1..][..|lit| - 1];
          }
        }
      } else {
        assert !(lit <= a);
      }
    }
  }

  /** Whether a mode is a writing mode (it contains `w`). */
  predicate Writing(mode: Option<string>)
  {
    mode.Some? && 'w' in mode.value
  }

  /** The kind of handle `urlOpen` makes for `fname` opened with `mode`
      (`None` for a null mode): any mode containing `w` opens a local file,
      otherwise the URL scheme decides. */
  function Classify(fname: string, mode: Option<string>): (r: SourceType)
    ensures mode.Some? && 'w' in mode.value ==> r == File
    ensures (mode.None? || 'w' !in mode.value) ==>
      && (r == Http <==> "http://" <= fname)
      && (r == Https <==> "https://" <= fname)
      && (r == Ftp <==> "ftp://" <= fname)
  {
    StrNEqualIsPrefix(fname, "http://");
    StrNEqualIsPrefix(fname, "https://");
    StrNEqualIsPrefix(fname, "ftp://");
    assert !("https://" <= fname && "http://" <= fname) by {
      if "https://" <= fname { assert fname[4] == 's'; }
    }
    if Writing(mode) then File
    else if SchemeMatches(fname, "http://") then Http
    else if SchemeMatches(fname, "https://") then Https
    else if SchemeMatches(fname, "ftp://") then Ftp
    else File
  }

  /** A local handle opened for reading: its position is the `(size_t)-1`
      "nothing read yet" sentinel, and it has no memory buffer. */
  const LocalWindow := Window(Unset, [], 0, 0, false, false)

  /** A local handle opened for writing: the position stays at the 0 of the
      zeroed allocation, and it has no memory buffer. */
  const WriteWindow := Window(At(0), [], 0, 0, false, false)

  /** The range of the warm-up transfer: the first buffer of the resource. */
  function WarmUp(bufSize: nat): Range
  {
    Range(0, bufSize - 1)
  }

  /** `urlOpen`. A local file opens when `fopen` succeeds (`fopenOk`); a
      remote resource opens when the warm-up transfer of its first
      `bufSize` bytes succeeds. */
  function Open(fname: string, mode: Option<string>, bufSize: nat, t: Transport, fopenOk: bool): (r: Option<Url>)
    requires 0 < bufSize
    ensures r.Some? ==> r.value.kind == Classify(fname, mode)
    ensures Classify(fname, mode) == File ==>
      && (r.Some? <==> fopenOk)
      && (r.Some? ==> r.value.window == if Writing(mode) then WriteWindow else LocalWindow)
    ensures Classify(fname, mode) != File ==>
      && (r.Some? <==> t(WarmUp(bufSize)).Completed? && |Flatten(t(WarmUp(bufSize)).chunks)| <= bufSize)
      && (r.Some? ==>
        && r.value.window.Valid() && r.value.window.hasBuffer && !r.value.window.isCompressed
        && r.value.window.filePos == At(0) && r.value.window.bufPos == 0
        && r.value.window.bufSize == bufSize
        && r.value.window.data == Flatten(t(WarmUp(bufSize)).chunks))
  {
    var kind := Classify(fname, mode);
    if kind == File then
      if !fopenOk then None
      else if Writing(mode) then Some(Url(File, WriteWindow))
      else Some(Url(File, LocalWindow))
    else
      var initial := Window(At(0), [], 0, bufSize, false, true);
      var p := Perform(initial, t(WarmUp(bufSize)));
      if p.ok then Some(Url(kind, p.window)) else None
  }

  /** Against an honest server, an opened remote handle holds the first
      buffer of the resource and satisfies the read precondition for any
      span inside the resource. */
  lemma OpenHonest(fname: string, mode: Option<string>, bufSize: nat, t: Transport, fopenOk: bool, resource: seq<byte>, n: nat)
    requires 0 < bufSize && Honest(t, resource)
    requires Classify(fname, mode) != File
    ensures var r := Open(fname, mode, bufSize, t, fopenOk);
      && (r.Some? <==> t(WarmUp(bufSize)).Completed?)
      && (r.Some? ==> r.value.window.data == Slice(resource, 0, bufSize))
      && (r.Some? && n <= |resource| ==> ReadableSpan(r.value.window, t, resource, n))
  {
    var r := Open(fname, mode, bufSize, t, fopenOk);
    HonestReply(t, resource, WarmUp(bufSize), if r.Some? then r.value.window.data else [], r.Some?, bufSize);
  }

  /** `urlRead`. A local handle reads with `fread(buf, n, 1, fp)`, which
      counts only a whole element: `local` is what the C library delivered.
      A remote handle reads through its window. Either way the result is all
      of `n` or nothing. */
  method UrlRead(u: Url, n: nat, t: Transport, ghost resource: seq<byte>, local: seq<byte>)
    returns (got: nat, out: seq<byte>, u': Url, requests: seq<Range>)
    requires u.kind == File ==> |local| <= n
    requires u.kind != File ==> ReadableSpan(u.window, t, resource, n)
    ensures got == n || got == 0
    ensures u'.kind == u.kind
    ensures u.kind == File ==> u' == u && out == local && (0 < n ==> (got == n <==> |local| == n))
    ensures u.kind != File ==>
      && |out| <= n
      && out == resource[u.window.Cursor()..u.window.Cursor() + |out|]
      && (got == n ==> |out| == n && u'.window.Cursor() == u.window.Cursor() + n)
      && ReadableSpan(u'.window, t, resource, 0)
      && (got == n <==> forall i | 0 <= i < |requests| :: t(requests[i]).Completed?)
      && (u.window.bufPos + n <= |u.window.data| ==>
        requests == [] && got == n && u'.window == u.window.(bufPos := u.window.bufPos + n))
      && (requests == [] <==> u.window.bufPos + n <= |u.window.data|)
      && (got == n && requests != [] ==>
        && u'.window.filePos == At(requests[|requests| - 1].first)
        && u'.window.data == Flatten(t(requests[|requests| - 1]).chunks))
      && Planned(u.window, n, t, requests)
    ensures u.kind == File ==> requests == []
  {
    if u.kind == File {
      var items := if |local| == n && 0 < n then 1 else 0;
      got := items * n;
      out, u', requests := local, u, [];
    } else {
      var w;
      got, out, w, requests := Read(u.window, n, t, resource);
      u' := u.(window := w);
    }
  }
}
